=== FILE: README.md ===
# Reddit keyword notifier: match-and-dedup model

A Dafny model of the polling loop of the Telegram Reddit notifier
(`monitor_feeds` in `Telegram_reddit_bot.py`). At start-up the bot creates one
empty seen-set per feed URL. Each cycle then visits the configured feeds
in order. For each feed it fetches the listing and walks the posts in listing
order. A post whose id is not yet in the feed's seen-set, and whose lower-cased
title contains some lower-cased keyword, is sent to the chat. Its id is then
added to the seen-set. Any exception abandons the rest of the cycle, and an
error alert is sent.

Modules, one per file:

- `Wrappers` (`wrappers.dfy`): `Option`.
- `Text` (`text.dfy`): ASCII lower-casing. Also substring search, with a
  reference meaning ("occurs at some position") it is proved equal to.
- `Keywords` (`keywords.dfy`): the keyword test of line 48, `any(keyword.lower()
  in title.lower() for keyword in keywords)`, and its meaning.
- `Messages` (`messages.dfy`): the post notification of lines 49-50 and the
  error alert of line 57. There is also a decoder, and a proved round trip
  between the two.
- `FeedScan` (`scan.dfy`): the walk over one feed's posts (lines 43-52). The
  chat transport is an oracle `delivered: nat -> bool`: send attempt `k` of
  the cycle either returns or raises.
- `Monitor` (`monitor.dfy`):
  - the seen-sets keyed by URL (lines 27-30);
  - one cycle, with its catch-all handler (lines 33-58);
  - a finite sequence of cycles.

Behaviour of the code that the model keeps:

- The send happens before the id is recorded (lines 51-52). A send that
  raises leaves the id unseen. The post is then tried again in a later
  cycle, provided the alert's own send did not raise and the listing still
  holds the post. The raising send also abandons every later post and feed
  of the cycle.
- Seen-sets are keyed by URL (lines 30, 38), so two feeds with the same URL
  share one set. The URL is fetched once per feed (line 40), so the two
  fetches may return different listings. A post that both fetches list and
  both feeds match is sent once, under the first feed's name (proved for a
  cycle over just those two feeds and a one-post listing). A post that only
  the second fetch lists is sent under the second feed's name.
- A post that matches no keyword is not recorded. It is tested again
  whenever a later cycle reaches its feed and the listing still holds it.
- The alert send inside `except` (line 57) is not guarded. If it raises too,
  the exception leaves `monitor_feeds` and the process ends. The model calls
  this status `Halted`, and `Run` stops there.
- A feed whose URL has no seen-set makes the lookup at line 38 raise, before
  the fetch. The model records this as the abort `UnknownUrl`. Start-up
  creates a set for every configured URL, so this cannot happen in a run
  (`Monitor.TrackedNeverUnknown`, `Monitor.Monitor`).

Other facts about the code that the model follows:

- Matching uses include keywords only, against the title only, as
  case-insensitive substrings. There are no exclude keywords and no
  whole-word mode.
- Every post link is `"https://www.reddit.com" + permalink`, with no
  fallback.
- The pause between cycles is 300 seconds (lines 54, 58). The model leaves
  the pause out.

## Model

| member | source | states |
|---|---|---|
| Text.LowerIsLowerAndIdempotent | Telegram_reddit_bot.py:48 | lower-casing leaves no upper-case letter, and lower-casing twice equals lower-casing once |
| Text.OccursMeaning | Telegram_reddit_bot.py:48 | the containment test `p in t` holds exactly when `p` occurs in `t` at some position |
| Text.EmptyOccursEverywhere | Telegram_reddit_bot.py:48 | the empty string is contained in every string |
| Text.OccursInContext | Telegram_reddit_bot.py:48 | a string contained in `t` is contained in any text that has `t` inside it |
| Keywords.AnyKeyword | Telegram_reddit_bot.py:48 | the short-circuiting `any(...)` holds exactly when some keyword, lower-cased, occurs in the lower-cased title |
| Keywords.EmptyKeywordMatchesEveryTitle | Telegram_reddit_bot.py:48 | a keyword list containing `""` matches every title |
| Keywords.TitleCaseIrrelevant | Telegram_reddit_bot.py:48 | a title and its lower-cased form match the same keywords |
| Keywords.KeywordCaseIrrelevant | Telegram_reddit_bot.py:48 | a keyword and its lower-cased form match the same titles |
| Keywords.KeywordOrderIrrelevant | Telegram_reddit_bot.py:48 | two keyword lists with the same elements match the same titles, whatever the order or repetition |
| Keywords.MatchSurvivesSurroundingText | Telegram_reddit_bot.py:48 | matching is by substring, not whole word: text added around a matching title keeps it matching |
| Messages.Alert | Telegram_reddit_bot.py:57 | the alert is exactly the warning sign and " Error: " (ten characters) followed by the error text |
| Messages.Notification | Telegram_reddit_bot.py:49-50 | a notification opens with the loudspeaker sign and the bracketed feed name, carries the title after the fixed head, and ends with the site root followed by the permalink; its length is that of its parts plus 20 fixed characters |
| Messages.AlertDetailOfAlert | Telegram_reddit_bot.py:57 | decoding an alert gives back its error text |
| Messages.AlertOfAlertDetail | Telegram_reddit_bot.py:57 | any text that decodes as an alert is the alert of the decoded error text |
| Messages.AlertIsNoNotification | Telegram_reddit_bot.py:50-57 | no alert equals any post notification |
| Messages.TitleOfNotification | Telegram_reddit_bot.py:49-50 | from a notification built for a feed name, title and permalink, the decoder recovers the title |
| Messages.NotificationOfTitleOf | Telegram_reddit_bot.py:49-50 | any text that decodes is exactly the notification of the decoded title, so the format has no other shape |
| Messages.NotificationDistinguishesTitles | Telegram_reddit_bot.py:49-50 | posts with different titles get different notifications |
| Messages.NotificationDistinguishesLinks | Telegram_reddit_bot.py:49-50 | posts with different permalinks get different notifications |
| FeedScan.ScanPosts | Telegram_reddit_bot.py:43-52 | the seen-set only grows, and only by ids of matching posts; a scan that finishes adds exactly the matching ids |
| FeedScan.ReliableScanFinishes | Telegram_reddit_bot.py:43-52 | when no send raises, the scan of a listing always runs to the end |
| FeedScan.MatchedIdsMeaning | Telegram_reddit_bot.py:48 | an id is collected exactly when some post in the listing has that id and a matching title |
| FeedScan.SentCountsNewIds | Telegram_reddit_bot.py:51-52 | one message goes out per id newly recorded |
| FeedScan.ScanSplit | Telegram_reddit_bot.py:43-52 | scanning a listing in two parts, the second starting from the first's seen-set and attempt count, equals scanning it whole, when the first part's scan did not fail |
| FeedScan.PostStep | Telegram_reddit_bot.py:43-52 | for any transport, post `i`, reached by a scan that has not failed, yields a message exactly when its id is unseen when it is reached and its title matches and its send does not raise; the message is its notification |
| FeedScan.FailedScanAbsorbs | Telegram_reddit_bot.py:43-56 | a scan that failed on a listing ignores every post after it |
| FeedScan.FailedPrefixStaysFailed | Telegram_reddit_bot.py:43-56 | once the scan of a prefix of the listing failed, every longer prefix gives that same scan |
| FeedScan.NotifiedIffFresh | Telegram_reddit_bot.py:48-52 | when no send raises, post `i` yields a message exactly when its id is unseen when it is reached (neither in the old set nor recorded from an earlier post) and its title matches; the message is its notification |
| FeedScan.RepeatedIdNotifiedOnce | Telegram_reddit_bot.py:43-52 | for any transport, two posts of one listing with the same id never both yield a message |
| FeedScan.RescanQuiet | Telegram_reddit_bot.py:48 | when every matching id is already seen, the scan sends nothing and changes nothing |
| FeedScan.RescanIdempotent | Telegram_reddit_bot.py:43-52 | scanning the same listing again from the seen-set a finished scan produced sends nothing and changes nothing |
| FeedScan.NoKeywordsNoEffect | Telegram_reddit_bot.py:48 | a feed without keywords sends nothing and records nothing |
| FeedScan.NothingMatchesWithoutKeywords | Telegram_reddit_bot.py:48 | with no keywords, no post matches |
| FeedScan.EmptyKeywordNotifiesNewPost | Telegram_reddit_bot.py:48-52 | with the empty keyword, a new first post is sent when its send does not raise, and its id is then recorded, whatever its title |
| FeedScan.UnmatchedPostReconsidered | Telegram_reddit_bot.py:48-52 | an id whose posts did not match stays unseen, so a later matching post with that id is sent when its send does not raise |
| FeedScan.FailureStopsScan | Telegram_reddit_bot.py:43-56 | a failed scan stopped at a qualifying post whose send raised: the result is that of the posts before it, and the post's id stays unseen |
| FeedScan.NoDeliveryScanSendsNothing | Telegram_reddit_bot.py:51 | when every send raises, the scan sends nothing |
| Monitor.UrlsMeaning | Telegram_reddit_bot.py:29-30 | a URL is a configured URL exactly when some feed has it |
| Monitor.InitialState | Telegram_reddit_bot.py:27-30 | start-up gives every configured URL, and nothing else, an empty seen-set |
| Monitor.PollFeeds | Telegram_reddit_bot.py:33-52 | the feed loop keeps the set of tracked URLs unchanged |
| Monitor.PollCompletes | Telegram_reddit_bot.py:33-56 | the feed loop is abandoned only for a missing seen-set, an error response or a failing send, and it always finishes when none of these can occur |
| Monitor.FinishedPollHadCause | Telegram_reddit_bot.py:33-56 | a feed loop that ran to the end found every seen-set and got a listing for every feed |
| Monitor.ReliablePollFinishes | Telegram_reddit_bot.py:33-56 | with every seen-set present, every response a listing and no send raising, the feed loop runs to the end |
| Monitor.TrackedNeverUnknown | Telegram_reddit_bot.py:27-38 | when every feed URL has a seen-set, the lookup never fails |
| Monitor.PollGrows | Telegram_reddit_bot.py:33-52 | the feed loop keeps every seen-set and every id in it, abandoned loops included |
| Monitor.PollKeepsOthers | Telegram_reddit_bot.py:33-52 | the feed loop leaves the seen-sets of URLs outside its feeds as they were |
| Monitor.RunOnlyGrows | Telegram_reddit_bot.py:32-58 | across any number of cycles, abandoned ones included, every seen-set is kept and no id is ever removed from it |
| Monitor.AbortIgnoresLaterFeeds | Telegram_reddit_bot.py:33-56 | once the loop is abandoned, feeds configured after that point change nothing and send nothing |
| Monitor.CleanPassRecordsAllMatches | Telegram_reddit_bot.py:34-52 | after a finished loop, every matching id of every feed's listing is in that feed URL's seen-set |
| Monitor.PollQuiet | Telegram_reddit_bot.py:34-52 | when every feed's matching ids are already seen, the loop sends nothing and changes nothing |
| Monitor.RunCycle | Telegram_reddit_bot.py:33-58 | a cycle with every seen-set present, every fetch a listing and no send raising ends normally; a cycle that ends normally found every seen-set and got a listing for every feed |
| Monitor.CycleIdempotent | Telegram_reddit_bot.py:32-58 | repeating a normally ended cycle on the same responses sends nothing and changes nothing, whatever the transport |
| Monitor.RepeatedRoundsNotifyOnce | Telegram_reddit_bot.py:32-58 | over any number of cycles that return the same responses, if the first cycle ends normally, the whole run sends just that cycle's notifications, raises no alert and keeps the seen-sets that cycle produced |
| Monitor.FetchFailureAlerts | Telegram_reddit_bot.py:40-58 | an error on the first feed's fetch abandons the cycle: nothing is sent or recorded, and the alert carries the error text |
| Monitor.SharedUrlNotifiesOnce | Telegram_reddit_bot.py:29-52 | in a cycle over just two feeds that share a URL, whose two fetches both return the one listing holding a new post both feeds match, the post is sent once, under the first feed's name, when no send raises |
| Monitor.RaisingSendsHalt | Telegram_reddit_bot.py:51-57 | when every send raises, nothing is sent, and an abandoned cycle stops the process |
| Monitor.NoDeliveryNoNotification | Telegram_reddit_bot.py:51 | when every send raises, the feed loop sends nothing |
| Monitor.Run | Telegram_reddit_bot.py:32-58 | a run keeps the set of tracked URLs unchanged |
| Monitor.Monitor | Telegram_reddit_bot.py:25-58 | throughout the process, exactly the configured URLs have seen-sets |

## Left out

- HTTP fetching and JSON decoding (`Telegram_reddit_bot.py:40-41`) are left
  out. Each feed's response is given as a decoded `Listing` of well-formed
  posts, or as a `FetchError` carrying the error text.
- Missing keys in the response are not modelled. Posts are records with
  `id`, `title` and `permalink`, and a listing always has its posts. In the
  code a missing key raises `KeyError` inside the cycle's `try`. This is not
  the same as a `FetchError`:
  - a post lacking `id` or `title` raises only when the walk reaches it,
    after the earlier posts of that feed were already sent and recorded;
  - a missing `permalink` raises only for a post that qualifies, since the
    link is built inside the `if` (line 49).
  The model cannot express either case.
- The Telegram transport (`Telegram_reddit_bot.py:14-17`) is replaced by an
  oracle saying which send attempts raise, plus the exception text. A raising
  send is taken to deliver nothing. `delivered(k)` means only that send `k`
  did not raise. `requests.post` does not raise on an HTTP error status, and
  line 17 ignores its result. So a message the chat service rejects still
  counts as sent, and its post is still recorded as seen. The model states
  nothing about what the chat actually receives.
- Calls that never return are left out. `requests.get` (line 40) and
  `requests.post` (line 17) set no timeout, so a call that hangs stalls the
  whole loop. The model assumes every fetch and send either returns or
  raises.
- Configuration and environment loading (`Telegram_reddit_bot.py:7-10,
  20-22`) are I/O. The feeds are given as a sequence.
- The endless `while True` loop and `time.sleep(300)`
  (`Telegram_reddit_bot.py:32, 54, 58`) are left out. They become a finite
  sequence of rounds, one per cycle.
- Text.Lower: lower-cases ASCII letters only, whereas Python's `str.lower()`
  follows Unicode case mappings (some of which change length). The keyword
  properties hold for this approximation.
- Monitor.AbortDetail: the alert text for an exception is an input, not
  Python's `str(e)`. One exception: a missing seen-set reads as the URL in
  single quotes. Python prints the key's `repr`, which may pick other quotes
  and escapes some characters; the model only wraps the URL in single
  quotes.
- Monitor.PollFeeds: its own contract states only that the tracked URLs are
  unchanged. Its behaviour is stated in `Monitor.PollCompletes`,
  `Monitor.PollGrows`, `Monitor.PollKeepsOthers`, `Monitor.CleanPassRecordsAllMatches`,
  `Monitor.PollQuiet` and `Monitor.AbortIgnoresLaterFeeds`.
- Monitor.Run: its own contract states only that the tracked URLs are
  unchanged. Growth is stated in `Monitor.RunOnlyGrows` and repetition in
  `Monitor.RepeatedRoundsNotifyOnce`.

=== FILE: keywords.dfy ===
/** The keyword test applied to every post title: case-insensitive substring
    containment of any configured keyword. */
module Keywords {
  import opened Text

  /** One keyword hits a title when the lower-cased keyword occurs in the
      lower-cased title. */
  predicate KeywordHits(keyword: string, title: string)
  {
    Occurs(Lower(keyword), Lower(title))
  }

  /** Python's `any(...)` over the keyword list: tries the keywords in order
      and stops at the first hit. Short-circuiting changes nothing about the
      answer: it is true exactly when some keyword of the list hits the
      title. */
  function AnyKeyword(title: string, keywords: seq<string>): (r: bool)
    ensures r <==> exists j :: 0 <= j < |keywords| && KeywordHits(keywords[j], title)
    decreases |keywords|
  {
    if |keywords| == 0 then false
    else
      var rest := AnyKeyword(title, keywords[1..]);
      assert forall j :: 1 <= j < |keywords| ==> keywords[j] == keywords[1..][j - 1];
      KeywordHits(keywords[0], title) || rest
  }

  /** The empty keyword occurs in every title, so a list containing it
      matches everything. */
  lemma EmptyKeywordMatchesEveryTitle(title: string, keywords: seq<string>)
    requires "" in keywords
    ensures AnyKeyword(title, keywords)
  {
    var j :| 0 <= j < |keywords| && keywords[j] == "";
    EmptyOccursEverywhere(Lower(title));
    assert Lower(keywords[j]) == "";
    assert KeywordHits(keywords[j], title);
  }

  /** The test ignores ASCII case on the title side: a title and its
      lower-cased form match the same keywords. */
  lemma TitleCaseIrrelevant(title: string, keywords: seq<string>)
    ensures AnyKeyword(Lower(title), keywords) == AnyKeyword(title, keywords)
  {
    LowerIsLowerAndIdempotent(title);
    forall j | 0 <= j < |keywords|
      ensures KeywordHits(keywords[j], Lower(title)) == KeywordHits(keywords[j], title)
    {
    }
  }

  /** The test ignores ASCII case on the keyword side too. */
  lemma KeywordCaseIrrelevant(title: string, keyword: string)
    ensures AnyKeyword(title, [Lower(keyword)]) == AnyKeyword(title, [keyword])
  {
    LowerIsLowerAndIdempotent(keyword);
    assert KeywordHits(Lower(keyword), title) == KeywordHits(keyword, title);
  }

  /** Only the set of keywords matters, not their order or repetition. */
  lemma KeywordOrderIrrelevant(title: string, a: seq<string>, b: seq<string>)
    requires forall k :: k in a <==> k in b
    ensures AnyKeyword(title, a) == AnyKeyword(title, b)
  {
    if AnyKeyword(title, a) {
      var j :| 0 <= j < |a| && KeywordHits(a[j], title);
      assert a[j] in b;
      var i :| 0 <= i < |b| && b[i] == a[j];
      assert KeywordHits(b[i], title);
    }
    if AnyKeyword(title, b) {
      var j :| 0 <= j < |b| && KeywordHits(b[j], title);
      assert b[j] in a;
      var i :| 0 <= i < |a| && a[i] == b[j];
      assert KeywordHits(a[i], title);
    }
  }

  /** Matching is by substring, not by whole word: a title that matches keeps
      matching when arbitrary text is put around it. */
  lemma MatchSurvivesSurroundingText(title: string, keywords: seq<string>, before: string, after: string)
    requires AnyKeyword(title, keywords)
    ensures AnyKeyword(before + title + after, keywords)
  {
    var j :| 0 <= j < |keywords| && KeywordHits(keywords[j], title);
    LowerAppend(before + title, after);
    LowerAppend(before, title);
    OccursInContext(Lower(keywords[j]), Lower(title), Lower(before), Lower(after));
    assert KeywordHits(keywords[j], before + title + after);
  }
}

=== FILE: messages.dfy ===
/** The text of the notifications sent to the chat: one per new matching
    post, and one alert when a cycle is abandoned. */
module Messages {
  import opened Wrappers

  /** Every post link is the site root followed by the post's permalink. */
  const SiteRoot: string := "https://www.reddit.com"

  /** Loudspeaker emoji (U+1F4E2) that opens a post notification. */
  const Loudspeaker: char := '\U{1F4E2}'

  /** Link emoji (U+1F517) that introduces the post link. */
  const LinkMark: char := '\U{1F517}'

  /** Warning sign (U+26A0) and emoji presentation selector (U+FE0F). */
  const WarningMark: string := "\U{26A0}\U{FE0F}"

  /** The part of a notification before the title. */
  function Head(name: string): string
  {
    [Loudspeaker] + " [" + name + "] New post:\n\n"
  }

  /** The part of a notification between the title and the permalink. */
  function Tail(): string
  {
    "\n\n" + [LinkMark] + " " + SiteRoot
  }

  /** The notification for one post of the feed called `name`. */
  function Notification(name: string, title: string, permalink: string): (r: string)
    ensures |r| == |name| + |title| + |SiteRoot| + |permalink| + 20
    ensures r[0] == Loudspeaker
    ensures r[2..4 + |name|] == "[" + name + "]"
    ensures r[|Head(name)|..|Head(name)| + |title|] == title
    ensures r[|r| - |permalink| - |SiteRoot|..] == SiteRoot + permalink
  {
    Head(name) + title + Tail() + permalink
  }

  /** What every alert starts with: the warning sign and the word "Error". */
  const AlertLead: string := WarningMark + " Error: "

  /** The alert sent when a cycle is abandoned because of an error whose
      description is `detail`. */
  function Alert(detail: string): (r: string)
    ensures |r| == |detail| + 10
    ensures r[..|r| - |detail|] == WarningMark + " Error: "
    ensures r[|r| - |detail|..] == detail
  {
    AlertLead + detail
  }

  /** Reads the error description back out of an alert. */
  function AlertDetail(m: string): (r: Option<string>)
    ensures r.Some? <==> exists d :: m == Alert(d)
  {
    if |m| >= |AlertLead| && m[..|AlertLead|] == AlertLead then
      assert m == Alert(m[|AlertLead|..]);
      Some(m[|AlertLead|..])
    else
      None
  }

  /** The error description survives the alert: decoding an alert gives back
      its detail. */
  lemma AlertDetailOfAlert(detail: string)
    ensures AlertDetail(Alert(detail)) == Some(detail)
  {
  }

  /** Any text that decodes as an alert is the alert of its decoded detail. */
  lemma AlertOfAlertDetail(m: string)
    requires AlertDetail(m).Some?
    ensures Alert(AlertDetail(m).value) == m
  {
  }

  /** An alert never reads as a post notification: the two open with
      different marks. */
  lemma AlertIsNoNotification(detail: string, name: string, title: string, permalink: string)
    ensures Alert(detail) != Notification(name, title, permalink)
  {
    assert Alert(detail)[0] == WarningMark[0] != Loudspeaker == Notification(name, title, permalink)[0];
  }

  /** Reads the title back out of a notification, given the feed name and
      the permalink it was built from. */
  function TitleOf(name: string, permalink: string, m: string): (r: Option<string>)
    ensures r.Some? ==> |m| == |Head(name)| + |r.value| + |Tail()| + |permalink|
  {
    var h := Head(name);
    var t := Tail() + permalink;
    if |h| + |t| <= |m| && m[..|h|] == h && m[|m| - |t|..] == t then
      Some(m[|h|..|m| - |t|])
    else
      None
  }

  /** Decoding a notification recovers its title. */
  lemma TitleOfNotification(name: string, title: string, permalink: string)
    ensures TitleOf(name, permalink, Notification(name, title, permalink)) == Some(title)
  {
    var m := Notification(name, title, permalink);
    var h := Head(name);
    var t := Tail() + permalink;
    assert m == h + title + t;
    assert m[..|h|] == h;
    assert m[|m| - |t|..] == t;
    assert m[|h|..|m| - |t|] == title;
  }

  /** Conversely, whatever decodes is exactly the notification of the title
      it decodes to: the format has no other shapes. */
  lemma NotificationOfTitleOf(name: string, permalink: string, m: string)
    requires TitleOf(name, permalink, m).Some?
    ensures m == Notification(name, TitleOf(name, permalink, m).value, permalink)
  {
    var h := Head(name);
    var t := Tail() + permalink;
    assert m == m[..|h|] + m[|h|..|m| - |t|] + m[|m| - |t|..];
  }

  /** For a fixed feed and permalink, different titles give different
      notifications. */
  lemma NotificationDistinguishesTitles(name: string, t1: string, t2: string, permalink: string)
    requires t1 != t2
    ensures Notification(name, t1, permalink) != Notification(name, t2, permalink)
  {
    TitleOfNotification(name, t1, permalink);
    TitleOfNotification(name, t2, permalink);
  }

  /** For a fixed feed and title, different permalinks give different
      notifications: the link is the notification's suffix. */
  lemma NotificationDistinguishesLinks(name: string, title: string, p1: string, p2: string)
    requires p1 != p2
    ensures Notification(name, title, p1) != Notification(name, title, p2)
  {
    var prefix := Head(name) + title + Tail();
    assert Notification(name, title, p1) == prefix + p1;
    assert Notification(name, title, p2) == prefix + p2;
    if |p1| == |p2| {
      assert (prefix + p1)[|prefix|..] == p1;
      assert (prefix + p2)[|prefix|..] == p2;
    }
  }
}

=== FILE: monitor.dfy ===
/** The polling loop: one seen-set per feed URL, and cycles that scan every
    configured feed in order under one catch-all error handler. */
module Monitor {
  import opened Wrappers
  import opened Messages
  import opened FeedScan

  /** The decoded answer to one feed's GET request, or the error raised while
      fetching or decoding it. */
  datatype Fetch = Listing(posts: seq<Post>) | FetchError(detail: string)

  /** The chat transport during one cycle: which send attempts raise,
      and the text of the exception a failing send raises. */
  datatype Transport = Transport(delivered: Delivery, detail: string)

  /** The seen-sets, keyed by feed URL. */
  type State = map<string, set<string>>

  /** Why a cycle was abandoned: a feed URL without a seen-set (the lookup
      raises), a fetch or decoding error, or a send that raised. */
  datatype Abort = UnknownUrl(url: string) | FetchFailed(detail: string) | SendFailed

  /** The outcome of the feed loop of one cycle. */
  datatype Pass = Pass(state: State, sent: seq<string>, abort: Option<Abort>)

  /** How a cycle ended: normally; abandoned with an alert that went out; or
      abandoned with an alert whose own send raised, which nothing catches,
      so the process stops. */
  datatype Status = Clean | Alerted(alert: string) | Halted(alert: string)

  datatype CycleResult = CycleResult(state: State, sent: seq<string>, status: Status)

  /** The input of one cycle: a response per configured feed, in order, and
      the transport's behaviour. */
  datatype Round = Round(responses: seq<Fetch>, transport: Transport)

  /** The outcome of a sequence of cycles: final seen-sets, the post
      notifications and the alerts that went out, and whether the process
      stopped. */
  datatype RunResult = RunResult(state: State, sent: seq<string>, alerts: seq<string>, halted: bool)

  /** The URLs of the configured feeds. */
  function Urls(feeds: seq<Feed>): set<string>
    decreases |feeds|
  {
    if |feeds| == 0 then {} else {feeds[0].url} + Urls(feeds[1..])
  }

  /** A URL is configured exactly when some feed has it. */
  lemma {:induction false} UrlsMeaning(feeds: seq<Feed>, u: string)
    ensures u in Urls(feeds) <==> exists i :: 0 <= i < |feeds| && feeds[i].url == u
    decreases |feeds|
  {
    if |feeds| > 0 {
      UrlsMeaning(feeds[1..], u);
      if u in Urls(feeds[1..]) {
        var i :| 0 <= i < |feeds[1..]| && feeds[1..][i].url == u;
        assert feeds[i + 1] == feeds[1..][i];
      }
      if exists i :: 0 <= i < |feeds| && feeds[i].url == u {
        var i :| 0 <= i < |feeds| && feeds[i].url == u;
        if i > 0 {
          assert feeds[1..][i - 1] == feeds[i];
        }
      }
    }
  }

  /** Every configured feed has a seen-set. */
  predicate Tracks(state: State, feeds: seq<Feed>)
  {
    forall i :: 0 <= i < |feeds| ==> feeds[i].url in state
  }

  /** Start-up: one empty seen-set per distinct feed URL, so feeds that share
      a URL share a set. */
  function InitialState(feeds: seq<Feed>): (s: State)
    ensures Tracks(s, feeds)
    ensures s.Keys == Urls(feeds)
    ensures forall u :: u in s ==> s[u] == {}
  {
    var s := map u | u in Urls(feeds) :: {};
    assert Tracks(s, feeds) by {
      forall i | 0 <= i < |feeds|
        ensures feeds[i].url in s
      {
        UrlsMeaning(feeds, feeds[i].url);
      }
    }
    s
  }

  /** Every response of the cycle is a listing. */
  predicate AllListings(responses: seq<Fetch>)
  {
    forall i :: 0 <= i < |responses| ==> responses[i].Listing?
  }

  /** The feed loop of one cycle, from the `attempt`-th send attempt on. For
      each feed in order: look up its seen-set, take its response, scan the
      listing. The first error ends the loop; the seen-set updates made
      before it stay. */
  function PollFeeds(feeds: seq<Feed>, responses: seq<Fetch>, state: State, attempt: nat, t: Transport): (r: Pass)
    requires |responses| == |feeds|
    ensures r.state.Keys == state.Keys
    decreases |feeds|
  {
    if |feeds| == 0 then
      Pass(state, [], None)
    else
      var f := feeds[0];
      if f.url !in state then
        Pass(state, [], Some(UnknownUrl(f.url)))
      else
        match responses[0]
        case FetchError(d) =>
          Pass(state, [], Some(FetchFailed(d)))
        case Listing(posts) =>
          var s := ScanPosts(f, state[f.url], posts, attempt, t.delivered);
          var state' := state[f.url := s.seen];
          if s.failed then
            Pass(state', s.sent, Some(SendFailed))
          else
            var rest := PollFeeds(feeds[1..], responses[1..], state', attempt + |s.sent|, t);
            Pass(rest.state, s.sent + rest.sent, rest.abort)
  }

  /** The text the exception of an abandoned cycle turns into. A missing key
      reads as the key in quotes. */
  function AbortDetail(a: Abort, t: Transport): string
  {
    match a
    case UnknownUrl(u) => "'" + u + "'"
    case FetchFailed(d) => d
    case SendFailed => t.detail
  }

  /** One cycle: the feed loop, then, if it was abandoned, the alert, sent as
      the next attempt after the last one the loop made. */
  function RunCycle(feeds: seq<Feed>, responses: seq<Fetch>, state: State, t: Transport): (r: CycleResult)
    requires |responses| == |feeds|
    ensures r.state.Keys == state.Keys
    ensures AllListings(responses) && Tracks(state, feeds) && Reliable(t.delivered, 0) ==> r.status.Clean?
    ensures r.status.Clean? ==> AllListings(responses) && Tracks(state, feeds)
  {
    var p := PollFeeds(feeds, responses, state, 0, t);
    PollCompletes(feeds, responses, state, 0, t);
    match p.abort
    case None =>
      CycleResult(p.state, p.sent, Clean)
    case Some(a) =>
      var attempts := |p.sent| + (if a.SendFailed? then 1 else 0);
      var alert := Alert(AbortDetail(a, t));
      CycleResult(p.state, p.sent, if t.delivered(attempts) then Alerted(alert) else Halted(alert))
  }

  /** Every round supplies one response per configured feed. */
  predicate WellFormedRounds(feeds: seq<Feed>, rounds: seq<Round>)
  {
    forall k :: 0 <= k < |rounds| ==> |rounds[k].responses| == |feeds|
  }

  /** A sequence of cycles; a cycle whose alert could not be sent ends the
      run. */
  function Run(feeds: seq<Feed>, rounds: seq<Round>, state: State): (r: RunResult)
    requires WellFormedRounds(feeds, rounds)
    ensures r.state.Keys == state.Keys
    decreases |rounds|
  {
    if |rounds| == 0 then
      RunResult(state, [], [], false)
    else
      var c := RunCycle(feeds, rounds[0].responses, state, rounds[0].transport);
      match c.status
      case Halted(_) =>
        RunResult(c.state, c.sent, [], true)
      case Alerted(a) =>
        var rest := Run(feeds, rounds[1..], c.state);
        RunResult(rest.state, c.sent + rest.sent, [a] + rest.alerts, rest.halted)
      case Clean =>
        var rest := Run(feeds, rounds[1..], c.state);
        RunResult(rest.state, c.sent + rest.sent, rest.alerts, rest.halted)
  }

  /** The whole process: start-up, then the cycles. Every configured feed
      keeps its seen-set throughout. */
  function Monitor(feeds: seq<Feed>, rounds: seq<Round>): (r: RunResult)
    requires WellFormedRounds(feeds, rounds)
    ensures r.state.Keys == Urls(feeds)
    ensures Tracks(r.state, feeds)
  {
    Run(feeds, rounds, InitialState(feeds))
  }

  /** The feed loop runs to the end exactly when it may: an abandoned loop
      met a missing seen-set, an error response or a failing send, and with
      every seen-set present, every response a listing and no send
      raising it always runs to the end. */
  lemma PollCompletes(feeds: seq<Feed>, responses: seq<Fetch>, state: State, attempt: nat, t: Transport)
    requires |responses| == |feeds|
    ensures var r := PollFeeds(feeds, responses, state, attempt, t);
            && (r.abort.None? ==> AllListings(responses) && Tracks(state, feeds))
            && (AllListings(responses) && Tracks(state, feeds) && Reliable(t.delivered, attempt) ==> r.abort.None?)
  {
    if PollFeeds(feeds, responses, state, attempt, t).abort.None? {
      FinishedPollHadCause(feeds, responses, state, attempt, t);
    }
    if AllListings(responses) && Tracks(state, feeds) && Reliable(t.delivered, attempt) {
      ReliablePollFinishes(feeds, responses, state, attempt, t);
    }
  }

  /** A feed loop that ran to the end found every seen-set and got a listing
      for every feed. */
  lemma {:induction false} FinishedPollHadCause(feeds: seq<Feed>, responses: seq<Fetch>, state: State, attempt: nat, t: Transport)
    requires |responses| == |feeds|
    requires PollFeeds(feeds, responses, state, attempt, t).abort.None?
    ensures AllListings(responses) && Tracks(state, feeds)
    decreases |feeds|
  {
    if |feeds| > 0 {
      var f := feeds[0];
      assert f.url in state && responses[0].Listing?;
      var s := ScanPosts(f, state[f.url], responses[0].posts, attempt, t.delivered);
      var state' := state[f.url := s.seen];
      PollUnfold(feeds, responses, state, attempt, t);
      FinishedPollHadCause(feeds[1..], responses[1..], state', attempt + |s.sent|, t);
      TracksTail(state', feeds);
      TracksSameKeys(state, state', feeds);
      ListingsTail(responses);
    }
  }

  /** With every seen-set present, every response a listing and no send
      raising, the feed loop runs to the end. */
  lemma {:induction false} ReliablePollFinishes(feeds: seq<Feed>, responses: seq<Fetch>, state: State, attempt: nat, t: Transport)
    requires |responses| == |feeds|
    requires AllListings(responses) && Tracks(state, feeds) && Reliable(t.delivered, attempt)
    ensures PollFeeds(feeds, responses, state, attempt, t).abort.None?
    decreases |feeds|
  {
    if |feeds| > 0 {
      var f := feeds[0];
      ReliableScanFinishes(f, state[f.url], responses[0].posts, attempt, t.delivered);
      var s := ScanPosts(f, state[f.url], responses[0].posts, attempt, t.delivered);
      var state' := state[f.url := s.seen];
      TracksTail(state', feeds);
      TracksSameKeys(state, state', feeds);
      ListingsTail(responses);
      ReliablePollFinishes(feeds[1..], responses[1..], state', attempt + |s.sent|, t);
      PollUnfold(feeds, responses, state, attempt, t);
    }
  }

  /** `Tracks` over a non-empty feed list is about its first feed and the
      rest. */
  lemma TracksTail(state: State, feeds: seq<Feed>)
    requires |feeds| > 0
    ensures Tracks(state, feeds) <==> feeds[0].url in state && Tracks(state, feeds[1..])
  {
    assert forall i :: 1 <= i < |feeds| ==> feeds[i] == feeds[1..][i - 1];
  }

  /** `Tracks` depends only on which URLs have seen-sets. */
  lemma TracksSameKeys(a: State, b: State, feeds: seq<Feed>)
    requires a.Keys == b.Keys
    ensures Tracks(a, feeds) <==> Tracks(b, feeds)
  {
  }

  /** `AllListings` over a non-empty response list is about its first
      response and the rest. */
  lemma ListingsTail(responses: seq<Fetch>)
    requires |responses| > 0
    ensures AllListings(responses) <==> responses[0].Listing? && AllListings(responses[1..])
  {
    assert forall i :: 1 <= i < |responses| ==> responses[i] == responses[1..][i - 1];
  }

  /** A seen-set is found for every feed as long as every configured URL got
      one at start-up: the lookup error is never what ends a cycle. */
  lemma {:induction false} TrackedNeverUnknown(feeds: seq<Feed>, responses: seq<Fetch>, state: State, attempt: nat, t: Transport)
    requires |responses| == |feeds|
    requires Tracks(state, feeds)
    ensures !PollFeeds(feeds, responses, state, attempt, t).abort.Some?
         || !PollFeeds(feeds, responses, state, attempt, t).abort.value.UnknownUrl?
    decreases |feeds|
  {
    if |feeds| > 0 && responses[0].Listing? {
      var f := feeds[0];
      var s := ScanPosts(f, state[f.url], responses[0].posts, attempt, t.delivered);
      if !s.failed {
        var state' := state[f.url := s.seen];
        assert Tracks(state', feeds[1..]) by {
          assert forall i :: 1 <= i < |feeds| ==> feeds[i] == feeds[1..][i - 1];
        }
        TrackedNeverUnknown(feeds[1..], responses[1..], state', attempt + |s.sent|, t);
      }
    }
  }

  /** `b` keeps every seen-set of `a` and every id in it. */
  predicate Grows(a: State, b: State)
  {
    forall u :: u in a ==> u in b && a[u] <= b[u]
  }

  /** `b` agrees with `a` on every URL of `a` outside `urls`. */
  predicate SameOutside(a: State, b: State, urls: set<string>)
  {
    forall u :: u in a && u !in urls ==> u in b && b[u] == a[u]
  }

  /** Growth accumulates. */
  lemma GrowsTransitive(a: State, b: State, c: State)
    requires Grows(a, b) && Grows(b, c)
    ensures Grows(a, c)
  {
    forall u | u in a
      ensures u in c && a[u] <= c[u]
    {
      assert a[u] <= b[u] <= c[u];
    }
  }

  /** A cycle's feed loop only adds ids: no seen-set loses an id, and the
      seen-sets of URLs no feed of the loop uses stay as they were. */
  lemma PollOnlyGrows(feeds: seq<Feed>, responses: seq<Fetch>, state: State, attempt: nat, t: Transport)
    requires |responses| == |feeds|
    ensures var r := PollFeeds(feeds, responses, state, attempt, t);
            Grows(state, r.state) && SameOutside(state, r.state, Urls(feeds))
  {
    PollGrows(feeds, responses, state, attempt, t);
    PollKeepsOthers(feeds, responses, state, attempt, t);
  }

  /** The feed loop removes no id from any seen-set. */
  lemma {:induction false} PollGrows(feeds: seq<Feed>, responses: seq<Fetch>, state: State, attempt: nat, t: Transport)
    requires |responses| == |feeds|
    ensures Grows(state, PollFeeds(feeds, responses, state, attempt, t).state)
    decreases |feeds|
  {
    var r := PollFeeds(feeds, responses, state, attempt, t);
    if |feeds| > 0 && feeds[0].url in state && responses[0].Listing? {
      var f := feeds[0];
      var s := ScanPosts(f, state[f.url], responses[0].posts, attempt, t.delivered);
      var state' := state[f.url := s.seen];
      UpdateGrows(state, f.url, s.seen);
      if s.failed {
        assert r.state == state';
      } else {
        var rest := PollFeeds(feeds[1..], responses[1..], state', attempt + |s.sent|, t);
        PollGrows(feeds[1..], responses[1..], state', attempt + |s.sent|, t);
        PollUnfold(feeds, responses, state, attempt, t);
        assert r.state == rest.state;
        GrowsTransitive(state, state', rest.state);
      }
    } else {
      assert r.state == state;
    }
  }

  /** Replacing a seen-set by a larger one is growth. */
  lemma UpdateGrows(state: State, url: string, ids: set<string>)
    requires url in state && state[url] <= ids
    ensures Grows(state, state[url := ids])
  {
  }

  /** The feed loop leaves the seen-sets of URLs outside its feeds alone. */
  lemma {:induction false} PollKeepsOthers(feeds: seq<Feed>, responses: seq<Fetch>, state: State, attempt: nat, t: Transport)
    requires |responses| == |feeds|
    ensures SameOutside(state, PollFeeds(feeds, responses, state, attempt, t).state, Urls(feeds))
    decreases |feeds|
  {
    if |feeds| > 0 && feeds[0].url in state && responses[0].Listing? {
      var f := feeds[0];
      var s := ScanPosts(f, state[f.url], responses[0].posts, attempt, t.delivered);
      var state' := state[f.url := s.seen];
      if s.failed {
        assert PollFeeds(feeds, responses, state, attempt, t).state == state';
      } else {
        PollKeepsOthers(feeds[1..], responses[1..], state', attempt + |s.sent|, t);
        PollUnfold(feeds, responses, state, attempt, t);
        var rest := PollFeeds(feeds[1..], responses[1..], state', attempt + |s.sent|, t).state;
        SameOutsideStep(state, f.url, s.seen, rest, Urls(feeds[1..]));
      }
    }
  }

  /** Updating one URL and then changing only URLs of `urls` changes nothing
      outside `{url} + urls`. */
  lemma SameOutsideStep(state: State, url: string, ids: set<string>, rest: State, urls: set<string>)
    requires SameOutside(state[url := ids], rest, urls)
    ensures SameOutside(state, rest, {url} + urls)
  {
    forall u | u in state && u !in {url} + urls
      ensures u in rest && rest[u] == state[u]
    {
      assert state[url := ids][u] == state[u];
    }
  }

  /** Seen-sets only grow across a run: no id is ever removed. */
  lemma {:induction false} RunOnlyGrows(feeds: seq<Feed>, rounds: seq<Round>, state: State)
    requires WellFormedRounds(feeds, rounds)
    ensures Grows(state, Run(feeds, rounds, state).state)
    decreases |rounds|
  {
    if |rounds| > 0 {
      PollGrows(feeds, rounds[0].responses, state, 0, rounds[0].transport);
      var c := RunCycle(feeds, rounds[0].responses, state, rounds[0].transport);
      if !c.status.Halted? {
        RunOnlyGrows(feeds, rounds[1..], c.state);
        GrowsTransitive(state, c.state, Run(feeds, rounds[1..], c.state).state);
      }
    }
  }

  /** The feed loop after a feed whose listing was scanned to the end goes on
      with the next feed, from the updated seen-sets and the next send
      attempt. */
  lemma PollUnfold(feeds: seq<Feed>, responses: seq<Fetch>, state: State, attempt: nat, t: Transport)
    requires |responses| == |feeds| && |feeds| > 0
    requires feeds[0].url in state
    requires responses[0].Listing?
    requires !ScanPosts(feeds[0], state[feeds[0].url], responses[0].posts, attempt, t.delivered).failed
    ensures var s := ScanPosts(feeds[0], state[feeds[0].url], responses[0].posts, attempt, t.delivered);
            var state' := state[feeds[0].url := s.seen];
            var rest := PollFeeds(feeds[1..], responses[1..], state', attempt + |s.sent|, t);
               PollFeeds(feeds, responses, state, attempt, t) == Pass(rest.state, s.sent + rest.sent, rest.abort)
  {
  }

  /** The first error ends the cycle's feed loop: once the loop over some
      feeds is abandoned, feeds configured after them change nothing, since
      they are never fetched or scanned. */
  lemma {:induction false} AbortIgnoresLaterFeeds(feeds: seq<Feed>, responses: seq<Fetch>, more: seq<Feed>, moreResponses: seq<Fetch>, state: State, attempt: nat, t: Transport)
    requires |responses| == |feeds| && |moreResponses| == |more|
    requires PollFeeds(feeds, responses, state, attempt, t).abort.Some?
    ensures PollFeeds(feeds + more, responses + moreResponses, state, attempt, t)
         == PollFeeds(feeds, responses, state, attempt, t)
    decreases |feeds|
  {
    var f := feeds[0];
    var all, allR := feeds + more, responses + moreResponses;
    assert all[0] == f && allR[0] == responses[0];
    if f.url in state && responses[0].Listing? {
      var s := ScanPosts(f, state[f.url], responses[0].posts, attempt, t.delivered);
      if !s.failed {
        var state' := state[f.url := s.seen];
        assert all[1..] == feeds[1..] + more && allR[1..] == responses[1..] + moreResponses;
        AbortIgnoresLaterFeeds(feeds[1..], responses[1..], more, moreResponses, state', attempt + |s.sent|, t);
        PollUnfold(feeds, responses, state, attempt, t);
        PollUnfold(all, allR, state, attempt, t);
      }
    }
  }

  /** After a cycle's feed loop ran to the end, every post that matched its
      feed's keywords has its id in the seen-set of that feed's URL. */
  lemma {:induction false} CleanPassRecordsAllMatches(feeds: seq<Feed>, responses: seq<Fetch>, state: State, attempt: nat, t: Transport)
    requires |responses| == |feeds|
    requires PollFeeds(feeds, responses, state, attempt, t).abort.None?
    ensures var r := PollFeeds(feeds, responses, state, attempt, t);
            forall i :: 0 <= i < |feeds| ==>
              && responses[i].Listing?
              && feeds[i].url in r.state
              && MatchedIds(responses[i].posts, feeds[i].keywords) <= r.state[feeds[i].url]
    decreases |feeds|
  {
    PollCompletes(feeds, responses, state, attempt, t);
    if |feeds| > 0 {
      var f := feeds[0];
      var posts := responses[0].posts;
      var s := ScanPosts(f, state[f.url], posts, attempt, t.delivered);
      var state' := state[f.url := s.seen];
      CleanPassRecordsAllMatches(feeds[1..], responses[1..], state', attempt + |s.sent|, t);
      PollOnlyGrows(feeds[1..], responses[1..], state', attempt + |s.sent|, t);
      var rest := PollFeeds(feeds[1..], responses[1..], state', attempt + |s.sent|, t);
      forall i | 1 <= i < |feeds|
        ensures MatchedIds(responses[i].posts, feeds[i].keywords) <= rest.state[feeds[i].url]
      {
        assert feeds[i] == feeds[1..][i - 1] && responses[i] == responses[1..][i - 1];
      }
    }
  }

  /** A feed loop over listings whose matching ids are all seen sends
      nothing and changes nothing, whatever the transport would do. */
  lemma {:induction false} PollQuiet(feeds: seq<Feed>, responses: seq<Fetch>, state: State, attempt: nat, t: Transport)
    requires |responses| == |feeds|
    requires Tracks(state, feeds)
    requires AllListings(responses)
    requires forall i :: 0 <= i < |feeds| ==> MatchedIds(responses[i].posts, feeds[i].keywords) <= state[feeds[i].url]
    ensures PollFeeds(feeds, responses, state, attempt, t) == Pass(state, [], None)
    decreases |feeds|
  {
    if |feeds| > 0 {
      var f := feeds[0];
      RescanQuiet(f, state[f.url], responses[0].posts, attempt, t.delivered);
      assert state[f.url := state[f.url]] == state;
      assert forall i :: 1 <= i < |feeds| ==> feeds[i] == feeds[1..][i - 1] && responses[i] == responses[1..][i - 1];
      PollQuiet(feeds[1..], responses[1..], state, attempt, t);
    }
  }

  /** Idempotence across cycles: repeating a cycle that ran to the end, on
      the same responses and from the seen-sets it left, sends nothing,
      changes nothing and ends normally, whatever the transport does. */
  lemma CycleIdempotent(feeds: seq<Feed>, responses: seq<Fetch>, state: State, t: Transport, t2: Transport)
    requires |responses| == |feeds|
    requires RunCycle(feeds, responses, state, t).status.Clean?
    ensures var c := RunCycle(feeds, responses, state, t);
            RunCycle(feeds, responses, c.state, t2) == CycleResult(c.state, [], Clean)
  {
    CleanPassRecordsAllMatches(feeds, responses, state, 0, t);
    var c := RunCycle(feeds, responses, state, t);
    PollQuiet(feeds, responses, c.state, 0, t2);
  }

  /** At most one notification per post id and feed URL over a run: when
      every cycle sees the same responses and the first one runs to the
      end, the whole run sends just the first cycle's notifications, raises
      no alert and keeps the seen-sets the first cycle produced. */
  lemma {:induction false} RepeatedRoundsNotifyOnce(feeds: seq<Feed>, rounds: seq<Round>, state: State)
    requires WellFormedRounds(feeds, rounds)
    requires |rounds| > 0
    requires forall k :: 0 <= k < |rounds| ==> rounds[k].responses == rounds[0].responses
    requires RunCycle(feeds, rounds[0].responses, state, rounds[0].transport).status.Clean?
    ensures var c := RunCycle(feeds, rounds[0].responses, state, rounds[0].transport);
            Run(feeds, rounds, state) == RunResult(c.state, c.sent, [], false)
    decreases |rounds|
  {
    var c := RunCycle(feeds, rounds[0].responses, state, rounds[0].transport);
    var rest := rounds[1..];
    if |rest| == 0 {
      assert c.sent + [] == c.sent;
    } else {
      CycleIdempotent(feeds, rounds[0].responses, state, rounds[0].transport, rest[0].transport);
      assert rest[0].responses == rounds[0].responses;
      RepeatedRoundsNotifyOnce(feeds, rest, c.state);
      var c2 := RunCycle(feeds, rest[0].responses, c.state, rest[0].transport);
      assert c2 == CycleResult(c.state, [], Clean);
      assert c.sent + [] == c.sent;
    }
  }

  /** A cycle whose first feed cannot be fetched sends no notification,
      leaves every seen-set as it was, and alerts with the error text as its
      first send attempt. */
  lemma FetchFailureAlerts(feeds: seq<Feed>, responses: seq<Fetch>, state: State, t: Transport)
    requires |responses| == |feeds| && |feeds| > 0
    requires feeds[0].url in state
    requires responses[0].FetchError?
    ensures var c := RunCycle(feeds, responses, state, t);
            && c.state == state
            && c.sent == []
            && c.status == (if t.delivered(0) then Alerted(Alert(responses[0].detail)) else Halted(Alert(responses[0].detail)))
  {
  }

  /** Feeds with the same URL share one seen-set: when two such feeds list
      the same new post and both match it, only the first notifies. */
  lemma SharedUrlNotifiesOnce(a: Feed, b: Feed, p: Post, state: State, t: Transport)
    requires a.url == b.url && a.url in state
    requires p.id !in state[a.url]
    requires Matches(p, a.keywords) && Matches(p, b.keywords)
    requires Reliable(t.delivered, 0)
    ensures var r := RunCycle([a, b], [Listing([p]), Listing([p])], state, t);
            r.sent == [NotificationFor(a, p)] && r.status.Clean? && p.id in r.state[a.url]
  {
    var feeds := [a, b];
    var responses := [Listing([p]), Listing([p])];
    assert [p][1..] == [];
    assert t.delivered(0);
    assert ScanPosts(a, state[a.url] + {p.id}, [], 1, t.delivered) == Scan(state[a.url] + {p.id}, [], false);
    var s := ScanPosts(a, state[a.url], [p], 0, t.delivered);
    assert [NotificationFor(a, p)] + [] == [NotificationFor(a, p)];
    assert s == Scan(state[a.url] + {p.id}, [NotificationFor(a, p)], false);
    var state' := state[a.url := s.seen];
    assert feeds[1..] == [b] && responses[1..] == [Listing([p])];
    assert MatchedIds([p], b.keywords) <= state'[b.url];
    RescanQuiet(b, state'[b.url], [p], 1, t.delivered);
    assert [b][1..] == [];
    assert state'[b.url := state'[b.url]] == state';
    assert PollFeeds([b], [Listing([p])], state', 1, t) == Pass(state', [], None);
    assert PollFeeds(feeds, responses, state, 0, t) == Pass(state', [NotificationFor(a, p)] + [], None);
  }

  /** When every send raises, nothing is sent, and an abandoned cycle cannot
      send its alert either; since the alert's send is not itself guarded,
      the process stops. */
  lemma RaisingSendsHalt(feeds: seq<Feed>, responses: seq<Fetch>, state: State, t: Transport)
    requires |responses| == |feeds|
    requires forall k: nat :: !t.delivered(k)
    ensures var c := RunCycle(feeds, responses, state, t);
            c.sent == [] && (c.status.Clean? || c.status.Halted?)
  {
    var p := PollFeeds(feeds, responses, state, 0, t);
    NoDeliveryNoNotification(feeds, responses, state, 0, t);
  }

  /** Nothing is sent when every send attempt raises. */
  lemma {:induction false} NoDeliveryNoNotification(feeds: seq<Feed>, responses: seq<Fetch>, state: State, attempt: nat, t: Transport)
    requires |responses| == |feeds|
    requires forall k: nat :: !t.delivered(k)
    ensures PollFeeds(feeds, responses, state, attempt, t).sent == []
    decreases |feeds|
  {
    if |feeds| > 0 && feeds[0].url in state && responses[0].Listing? {
      var f := feeds[0];
      var s := ScanPosts(f, state[f.url], responses[0].posts, attempt, t.delivered);
      NoDeliveryScanSendsNothing(f, state[f.url], responses[0].posts, attempt, t.delivered);
      if !s.failed {
        NoDeliveryNoNotification(feeds[1..], responses[1..], state[f.url := s.seen], attempt, t);
        PollUnfold(feeds, responses, state, attempt, t);
      }
    }
  }
}

=== FILE: scan.dfy ===
/** One feed's share of a polling cycle: walking the fetched listing in order,
    notifying every post that is new and matches a keyword, and recording its
    id in the feed's seen-set once the notification has gone out. */
module FeedScan {
  import opened Keywords
  import opened Messages

  /** A post of a fetched listing; only the fields the bot reads. */
  datatype Post = Post(id: string, title: string, permalink: string)

  /** One entry of the configuration file. */
  datatype Feed = Feed(name: string, url: string, keywords: seq<string>)

  /** The chat transport, seen from one polling cycle: `delivered(k)` tells
      whether the k-th send attempt of the cycle (counting from 0) returns
      or raises. Returning is all the code looks at: a send whose request
      the chat service answers with an error status still returns, and the
      post then counts as sent. */
  type Delivery = nat -> bool

  /** No send attempt from the `from`-th on raises. */
  ghost predicate Reliable(delivered: Delivery, from: nat)
  {
    forall k: nat :: from <= k ==> delivered(k)
  }

  /** Some keyword of the feed hits the post's title. */
  predicate Matches(p: Post, keywords: seq<string>)
  {
    AnyKeyword(p.title, keywords)
  }

  /** The guard of the notification: the post is new and matches. */
  predicate Qualifies(seen: set<string>, p: Post, keywords: seq<string>)
  {
    p.id !in seen && Matches(p, keywords)
  }

  /** The notification a feed sends for one of its posts. */
  function NotificationFor(feed: Feed, p: Post): string
  {
    Notification(feed.name, p.title, p.permalink)
  }

  /** Ids of the posts of a listing that match the keywords. */
  function MatchedIds(posts: seq<Post>, keywords: seq<string>): set<string>
    decreases |posts|
  {
    if |posts| == 0 then {}
    else (if Matches(posts[0], keywords) then {posts[0].id} else {}) + MatchedIds(posts[1..], keywords)
  }

  /** An id is a matched id exactly when some matching post of the listing
      carries it. */
  lemma {:induction false} MatchedIdsMeaning(posts: seq<Post>, keywords: seq<string>, x: string)
    ensures x in MatchedIds(posts, keywords)
        <==> exists j :: 0 <= j < |posts| && Matches(posts[j], keywords) && posts[j].id == x
    decreases |posts|
  {
    if |posts| > 0 {
      MatchedIdsMeaning(posts[1..], keywords, x);
      if x in MatchedIds(posts[1..], keywords) {
        var j :| 0 <= j < |posts[1..]| && Matches(posts[1..][j], keywords) && posts[1..][j].id == x;
        assert posts[j + 1] == posts[1..][j];
      }
      if exists j :: 0 <= j < |posts| && Matches(posts[j], keywords) && posts[j].id == x {
        var j :| 0 <= j < |posts| && Matches(posts[j], keywords) && posts[j].id == x;
        if j > 0 {
          assert posts[1..][j - 1] == posts[j];
        }
      }
    }
  }

  /** What scanning a listing leaves behind: the feed's seen-set, the
      notifications that went out, and whether a send raised. */
  datatype Scan = Scan(seen: set<string>, sent: seq<string>, failed: bool)

  /** The listing loop of one feed. `attempt` is the number of send attempts
      the cycle has made before this listing. A post whose send raises
      stops the scan without being recorded. */
  function ScanPosts(feed: Feed, seen: set<string>, posts: seq<Post>, attempt: nat, delivered: Delivery): (r: Scan)
    ensures seen <= r.seen
    ensures r.seen <= seen + MatchedIds(posts, feed.keywords)
    ensures !r.failed ==> r.seen == seen + MatchedIds(posts, feed.keywords)
    decreases |posts|
  {
    if |posts| == 0 then
      Scan(seen, [], false)
    else
      var p := posts[0];
      if !Qualifies(seen, p, feed.keywords) then
        ScanPosts(feed, seen, posts[1..], attempt, delivered)
      else if !delivered(attempt) then
        Scan(seen, [], true)
      else
        var rest := ScanPosts(feed, seen + {p.id}, posts[1..], attempt + 1, delivered);
        Scan(rest.seen, [NotificationFor(feed, p)] + rest.sent, rest.failed)
  }

  /** When no send raises a scan always runs to the end. */
  lemma {:induction false} ReliableScanFinishes(feed: Feed, seen: set<string>, posts: seq<Post>, attempt: nat, delivered: Delivery)
    requires Reliable(delivered, attempt)
    ensures !ScanPosts(feed, seen, posts, attempt, delivered).failed
    decreases |posts|
  {
    if |posts| > 0 {
      var p := posts[0];
      if !Qualifies(seen, p, feed.keywords) {
        ReliableScanFinishes(feed, seen, posts[1..], attempt, delivered);
      } else {
        assert delivered(attempt);
        ReliableScanFinishes(feed, seen + {p.id}, posts[1..], attempt + 1, delivered);
      }
    }
  }

  /** Every notification of a scan corresponds to exactly one newly recorded
      id: the scan sends as many messages as it adds ids, even when a send
      raises part-way. */
  lemma {:induction false} SentCountsNewIds(feed: Feed, seen: set<string>, posts: seq<Post>, attempt: nat, delivered: Delivery)
    ensures var r := ScanPosts(feed, seen, posts, attempt, delivered);
            |r.seen - seen| == |r.sent|
    decreases |posts|
  {
    if |posts| > 0 {
      var p := posts[0];
      if !Qualifies(seen, p, feed.keywords) {
        SentCountsNewIds(feed, seen, posts[1..], attempt, delivered);
      } else if delivered(attempt) {
        var seen' := seen + {p.id};
        SentCountsNewIds(feed, seen', posts[1..], attempt + 1, delivered);
        var rest := ScanPosts(feed, seen', posts[1..], attempt + 1, delivered);
        assert rest.seen - seen == (rest.seen - seen') + {p.id};
      }
    }
  }

  /** Scanning `a + b` is scanning `a` and then `b`, from the seen-set and
      the send attempt where the scan of `a` left off. */
  ghost predicate ComposesWith(feed: Feed, seen: set<string>, a: seq<Post>, b: seq<Post>, attempt: nat, delivered: Delivery)
  {
    var s1 := ScanPosts(feed, seen, a, attempt, delivered);
    var s2 := ScanPosts(feed, s1.seen, b, attempt + |s1.sent|, delivered);
    ScanPosts(feed, seen, a + b, attempt, delivered) == Scan(s2.seen, s1.sent + s2.sent, s2.failed)
  }

  /** Scanning a concatenation is scanning the first part and then, unless a
      send raised, the second part from where the first left off. */
  lemma {:induction false} ScanSplit(feed: Feed, seen: set<string>, a: seq<Post>, b: seq<Post>, attempt: nat, delivered: Delivery)
    requires !ScanPosts(feed, seen, a, attempt, delivered).failed
    ensures ComposesWith(feed, seen, a, b, attempt, delivered)
    decreases |a|, 1
  {
    if |a| == 0 {
      assert a + b == b;
      var s2 := ScanPosts(feed, seen, b, attempt, delivered);
      assert [] + s2.sent == s2.sent;
    } else if !Qualifies(seen, a[0], feed.keywords) {
      SkippedPostSplits(feed, seen, a, b, attempt, delivered);
    } else {
      SentPostSplits(feed, seen, a, b, attempt, delivered);
    }
  }

  /** `ScanSplit` when the first post does not qualify. */
  lemma {:induction false} SkippedPostSplits(feed: Feed, seen: set<string>, a: seq<Post>, b: seq<Post>, attempt: nat, delivered: Delivery)
    requires |a| > 0 && !Qualifies(seen, a[0], feed.keywords)
    requires !ScanPosts(feed, seen, a, attempt, delivered).failed
    ensures ComposesWith(feed, seen, a, b, attempt, delivered)
    decreases |a|, 0
  {
    assert (a + b)[0] == a[0] && (a + b)[1..] == a[1..] + b;
    ScanSplit(feed, seen, a[1..], b, attempt, delivered);
    assert ScanPosts(feed, seen, a, attempt, delivered) == ScanPosts(feed, seen, a[1..], attempt, delivered);
    assert ScanPosts(feed, seen, a + b, attempt, delivered) == ScanPosts(feed, seen, a[1..] + b, attempt, delivered);
  }

  /** `ScanSplit` when the first post is sent. */
  lemma {:induction false} SentPostSplits(feed: Feed, seen: set<string>, a: seq<Post>, b: seq<Post>, attempt: nat, delivered: Delivery)
    requires |a| > 0 && Qualifies(seen, a[0], feed.keywords)
    requires !ScanPosts(feed, seen, a, attempt, delivered).failed
    ensures ComposesWith(feed, seen, a, b, attempt, delivered)
    decreases |a|, 0
  {
    var p := a[0];
    assert (a + b)[0] == p && (a + b)[1..] == a[1..] + b;
    assert delivered(attempt);
    var seen' := seen + {p.id};
    var msg := NotificationFor(feed, p);
    ScanSplit(feed, seen', a[1..], b, attempt + 1, delivered);
    var r1 := ScanPosts(feed, seen', a[1..], attempt + 1, delivered);
    var s2 := ScanPosts(feed, r1.seen, b, attempt + 1 + |r1.sent|, delivered);
    var rab := ScanPosts(feed, seen', a[1..] + b, attempt + 1, delivered);
    assert rab == Scan(s2.seen, r1.sent + s2.sent, s2.failed);
    assert ScanPosts(feed, seen, a, attempt, delivered) == Scan(r1.seen, [msg] + r1.sent, r1.failed);
    assert ScanPosts(feed, seen, a + b, attempt, delivered) == Scan(rab.seen, [msg] + rab.sent, rab.failed);
    assert [msg] + (r1.sent + s2.sent) == ([msg] + r1.sent) + s2.sent;
  }

  /** Post `i` is the first post of the listing, from the left, to carry its
      id and match, and the id was not seen before the listing. */
  ghost predicate FreshAt(seen: set<string>, posts: seq<Post>, keywords: seq<string>, i: nat)
    requires i < |posts|
  {
    && Matches(posts[i], keywords)
    && posts[i].id !in seen
    && forall j :: 0 <= j < i ==> !(Matches(posts[j], keywords) && posts[j].id == posts[i].id)
  }

  /** Whatever the transport does, the post at position `i`, reached by a
      scan that has not failed, adds a notification exactly when it is fresh
      at that point of the listing and its send does not raise; the message
      is that post's notification and nothing else is sent for it. */
  lemma PostStep(feed: Feed, seen: set<string>, posts: seq<Post>, i: nat, attempt: nat, delivered: Delivery)
    requires i < |posts|
    requires !ScanPosts(feed, seen, posts[..i], attempt, delivered).failed
    ensures var s := ScanPosts(feed, seen, posts[..i], attempt, delivered);
      ScanPosts(feed, seen, posts[..i + 1], attempt, delivered).sent
      == s.sent + (if FreshAt(seen, posts, feed.keywords, i) && delivered(attempt + |s.sent|)
                   then [NotificationFor(feed, posts[i])] else [])
  {
    var p := posts[i];
    var pre := posts[..i];
    assert posts[..i + 1] == pre + [p];
    ScanSplit(feed, seen, pre, [p], attempt, delivered);
    var s1 := ScanPosts(feed, seen, pre, attempt, delivered);
    var s2 := ScanPosts(feed, s1.seen, [p], attempt + |s1.sent|, delivered);
    assert ScanPosts(feed, seen, pre + [p], attempt, delivered).sent == s1.sent + s2.sent;
    ScanOne(feed, s1.seen, p, attempt + |s1.sent|, delivered);
    assert s2.sent == if Qualifies(s1.seen, p, feed.keywords) && delivered(attempt + |s1.sent|)
                      then [NotificationFor(feed, p)] else [];
    assert Qualifies(s1.seen, p, feed.keywords) == FreshAt(seen, posts, feed.keywords, i) by {
      MatchedIdsMeaning(pre, feed.keywords, p.id);
      assert forall j :: 0 <= j < i ==> pre[j] == posts[j];
    }
  }

  /** When no send raises, the post at position `i` adds a notification
      exactly when it is fresh at that point of the listing; the message is
      that post's notification and nothing else is sent for it. */
  lemma NotifiedIffFresh(feed: Feed, seen: set<string>, posts: seq<Post>, i: nat, attempt: nat, delivered: Delivery)
    requires i < |posts|
    requires Reliable(delivered, attempt)
    ensures ScanPosts(feed, seen, posts[..i + 1], attempt, delivered).sent
         == ScanPosts(feed, seen, posts[..i], attempt, delivered).sent
            + (if FreshAt(seen, posts, feed.keywords, i) then [NotificationFor(feed, posts[i])] else [])
  {
    ReliableScanFinishes(feed, seen, posts[..i], attempt, delivered);
    PostStep(feed, seen, posts, i, attempt, delivered);
    var s := ScanPosts(feed, seen, posts[..i], attempt, delivered);
    assert delivered(attempt + |s.sent|);
  }

  /** A scan that failed on a listing ignores whatever follows the listing:
      the send that raised ended it. */
  lemma {:induction false} FailedScanAbsorbs(feed: Feed, seen: set<string>, a: seq<Post>, b: seq<Post>, attempt: nat, delivered: Delivery)
    requires ScanPosts(feed, seen, a, attempt, delivered).failed
    ensures ScanPosts(feed, seen, a + b, attempt, delivered) == ScanPosts(feed, seen, a, attempt, delivered)
    decreases |a|
  {
    var p := a[0];
    assert (a + b)[0] == p && (a + b)[1..] == a[1..] + b;
    if !Qualifies(seen, p, feed.keywords) {
      FailedScanAbsorbs(feed, seen, a[1..], b, attempt, delivered);
    } else if delivered(attempt) {
      FailedScanAbsorbs(feed, seen + {p.id}, a[1..], b, attempt + 1, delivered);
    }
  }

  /** Once the scan of a prefix of the listing has failed, the scan of every
      longer prefix is that same failed scan. */
  lemma FailedPrefixStaysFailed(feed: Feed, seen: set<string>, posts: seq<Post>, i: nat, j: nat, attempt: nat, delivered: Delivery)
    requires i <= j <= |posts|
    requires ScanPosts(feed, seen, posts[..i], attempt, delivered).failed
    ensures ScanPosts(feed, seen, posts[..j], attempt, delivered) == ScanPosts(feed, seen, posts[..i], attempt, delivered)
  {
    assert posts[..j] == posts[..i] + posts[i..j];
    FailedScanAbsorbs(feed, seen, posts[..i], posts[i..j], attempt, delivered);
  }

  /** A listing of one post: the post is sent and recorded when it
      qualifies and its send does not raise. */
  lemma ScanOne(feed: Feed, seen: set<string>, p: Post, attempt: nat, delivered: Delivery)
    ensures ScanPosts(feed, seen, [p], attempt, delivered)
         == if !Qualifies(seen, p, feed.keywords) then Scan(seen, [], false)
            else if !delivered(attempt) then Scan(seen, [], true)
            else Scan(seen + {p.id}, [NotificationFor(feed, p)], false)
  {
    assert [p][1..] == [];
    assert [NotificationFor(feed, p)] + [] == [NotificationFor(feed, p)];
  }

  /** Post `i` of the listing produced a notification. */
  ghost predicate Emits(feed: Feed, seen: set<string>, posts: seq<Post>, i: nat, attempt: nat, delivered: Delivery)
    requires i < |posts|
  {
    |ScanPosts(feed, seen, posts[..i + 1], attempt, delivered).sent|
      > |ScanPosts(feed, seen, posts[..i], attempt, delivered).sent|
  }

  /** An id repeated within one listing is notified at most once, whatever
      the transport does: it is recorded before the later posts are looked
      at, and a send that raises ends the scan. */
  lemma RepeatedIdNotifiedOnce(feed: Feed, seen: set<string>, posts: seq<Post>, i: nat, j: nat, attempt: nat, delivered: Delivery)
    requires i < j < |posts| && posts[i].id == posts[j].id
    ensures !(Emits(feed, seen, posts, i, attempt, delivered) && Emits(feed, seen, posts, j, attempt, delivered))
  {
    if ScanPosts(feed, seen, posts[..j], attempt, delivered).failed {
      FailedPrefixStaysFailed(feed, seen, posts, j, j + 1, attempt, delivered);
    } else {
      if ScanPosts(feed, seen, posts[..i], attempt, delivered).failed {
        FailedPrefixStaysFailed(feed, seen, posts, i, j, attempt, delivered);
      }
      PostStep(feed, seen, posts, i, attempt, delivered);
      PostStep(feed, seen, posts, j, attempt, delivered);
    }
  }

  /** A listing whose matching ids are all seen already sends nothing and
      changes nothing, whatever the transport would do. */
  lemma {:induction false} RescanQuiet(feed: Feed, seen: set<string>, posts: seq<Post>, attempt: nat, delivered: Delivery)
    requires MatchedIds(posts, feed.keywords) <= seen
    ensures ScanPosts(feed, seen, posts, attempt, delivered) == Scan(seen, [], false)
    decreases |posts|
  {
    if |posts| > 0 {
      RescanQuiet(feed, seen, posts[1..], attempt, delivered);
    }
  }

  /** Scanning the same listing again from the seen-set a complete scan left
      behind sends nothing and leaves the seen-set as it is. */
  lemma RescanIdempotent(feed: Feed, seen: set<string>, posts: seq<Post>, attempt: nat, delivered: Delivery, attempt2: nat, delivered2: Delivery)
    requires !ScanPosts(feed, seen, posts, attempt, delivered).failed
    ensures var s := ScanPosts(feed, seen, posts, attempt, delivered).seen;
            ScanPosts(feed, s, posts, attempt2, delivered2) == Scan(s, [], false)
  {
    RescanQuiet(feed, ScanPosts(feed, seen, posts, attempt, delivered).seen, posts, attempt2, delivered2);
  }

  /** A feed with no keywords notifies nothing and records nothing. */
  lemma NoKeywordsNoEffect(feed: Feed, seen: set<string>, posts: seq<Post>, attempt: nat, delivered: Delivery)
    requires feed.keywords == []
    ensures ScanPosts(feed, seen, posts, attempt, delivered) == Scan(seen, [], false)
  {
    NothingMatchesWithoutKeywords(posts, feed.keywords);
    RescanQuiet(feed, seen, posts, attempt, delivered);
  }

  /** Without keywords no post matches. */
  lemma {:induction false} NothingMatchesWithoutKeywords(posts: seq<Post>, keywords: seq<string>)
    requires keywords == []
    ensures MatchedIds(posts, keywords) == {}
    decreases |posts|
  {
    if |posts| > 0 {
      NothingMatchesWithoutKeywords(posts[1..], keywords);
    }
  }

  /** A feed with the empty keyword notifies every post whose id is new, in
      listing order, so the first post of a listing is notified whenever its
      id is unseen and the transport works. */
  lemma EmptyKeywordNotifiesNewPost(feed: Feed, seen: set<string>, posts: seq<Post>, attempt: nat, delivered: Delivery)
    requires "" in feed.keywords
    requires |posts| > 0 && posts[0].id !in seen
    requires delivered(attempt)
    ensures var r := ScanPosts(feed, seen, posts, attempt, delivered);
            |r.sent| > 0 && r.sent[0] == NotificationFor(feed, posts[0]) && posts[0].id in r.seen
  {
    EmptyKeywordMatchesEveryTitle(posts[0].title, feed.keywords);
  }

  /** A post that matched no keyword leaves no trace: if no post of the
      listing with its id matched, the id stays unseen, and a later listing
      in which that id now matches does notify it. */
  lemma UnmatchedPostReconsidered(feed: Feed, seen: set<string>, posts: seq<Post>, later: Post, attempt: nat, delivered: Delivery, attempt2: nat, delivered2: Delivery)
    requires later.id !in seen
    requires forall j :: 0 <= j < |posts| && posts[j].id == later.id ==> !Matches(posts[j], feed.keywords)
    requires Matches(later, feed.keywords) && delivered2(attempt2)
    ensures var s := ScanPosts(feed, seen, posts, attempt, delivered).seen;
            later.id !in s && ScanPosts(feed, s, [later], attempt2, delivered2).sent == [NotificationFor(feed, later)]
  {
    MatchedIdsMeaning(posts, feed.keywords, later.id);
    assert [later][1..] == [];
  }

  /** The scan of `posts` stopped at position `i`: it is exactly the scan of
      the posts before `i` followed by a raising send for post `i`, which
      qualified at that point, so the post's id stays unseen. */
  ghost predicate StopsAt(feed: Feed, seen: set<string>, posts: seq<Post>, attempt: nat, delivered: Delivery, i: nat)
  {
    && i < |posts|
    && var r := ScanPosts(feed, seen, posts, attempt, delivered);
       var s := ScanPosts(feed, seen, posts[..i], attempt, delivered);
       && !s.failed
       && r == Scan(s.seen, s.sent, true)
       && Qualifies(s.seen, posts[i], feed.keywords)
       && !delivered(attempt + |s.sent|)
       && posts[i].id !in r.seen
  }

  /** When a send raises, the scan stops at that post: the result is exactly
      that of the listing's prefix before it, the post qualified there, its
      send attempt is the one that failed, and its id stays unseen. */
  lemma {:induction false} FailureStopsScan(feed: Feed, seen: set<string>, posts: seq<Post>, attempt: nat, delivered: Delivery)
    returns (i: nat)
    requires ScanPosts(feed, seen, posts, attempt, delivered).failed
    ensures StopsAt(feed, seen, posts, attempt, delivered, i)
    decreases |posts|, 1
  {
    var p := posts[0];
    if !Qualifies(seen, p, feed.keywords) {
      i := SkippedPostStops(feed, seen, posts, attempt, delivered);
    } else if !delivered(attempt) {
      i := 0;
    } else {
      i := SentPostStops(feed, seen, posts, attempt, delivered);
    }
  }

  /** `FailureStopsScan` when the first post does not qualify. */
  lemma {:induction false} SkippedPostStops(feed: Feed, seen: set<string>, posts: seq<Post>, attempt: nat, delivered: Delivery)
    returns (i: nat)
    requires |posts| > 0 && !Qualifies(seen, posts[0], feed.keywords)
    requires ScanPosts(feed, seen, posts, attempt, delivered).failed
    ensures StopsAt(feed, seen, posts, attempt, delivered, i)
    decreases |posts|, 0
  {
    var k := FailureStopsScan(feed, seen, posts[1..], attempt, delivered);
    i := k + 1;
    PrefixTail(posts, k);
    assert ScanPosts(feed, seen, posts[..i], attempt, delivered)
        == ScanPosts(feed, seen, posts[1..][..k], attempt, delivered);
  }

  /** `FailureStopsScan` when the first post is sent. */
  lemma {:induction false} SentPostStops(feed: Feed, seen: set<string>, posts: seq<Post>, attempt: nat, delivered: Delivery)
    returns (i: nat)
    requires |posts| > 0 && Qualifies(seen, posts[0], feed.keywords) && delivered(attempt)
    requires ScanPosts(feed, seen, posts, attempt, delivered).failed
    ensures StopsAt(feed, seen, posts, attempt, delivered, i)
    decreases |posts|, 0
  {
    var p := posts[0];
    var k := FailureStopsScan(feed, seen + {p.id}, posts[1..], attempt + 1, delivered);
    i := k + 1;
    PrefixTail(posts, k);
    var rest := ScanPosts(feed, seen + {p.id}, posts[1..][..k], attempt + 1, delivered);
    var s := ScanPosts(feed, seen, posts[..i], attempt, delivered);
    assert s == Scan(rest.seen, [NotificationFor(feed, p)] + rest.sent, rest.failed);
    assert attempt + |s.sent| == attempt + 1 + |rest.sent|;
  }

  /** The first `k + 1` posts are the first post followed by the first `k`
      of the rest. */
  lemma PrefixTail(posts: seq<Post>, k: nat)
    requires k < |posts| - 1
    ensures |posts[..k + 1]| > 0 && posts[..k + 1][0] == posts[0]
    ensures posts[..k + 1][1..] == posts[1..][..k]
    ensures posts[k + 1] == posts[1..][k]
  {
  }

  /** A scan sends nothing when every send attempt raises: the first
      qualifying post's send raises. */
  lemma {:induction false} NoDeliveryScanSendsNothing(feed: Feed, seen: set<string>, posts: seq<Post>, attempt: nat, delivered: Delivery)
    requires forall k: nat :: !delivered(k)
    ensures ScanPosts(feed, seen, posts, attempt, delivered).sent == []
    decreases |posts|
  {
    if |posts| > 0 && !Qualifies(seen, posts[0], feed.keywords) {
      NoDeliveryScanSendsNothing(feed, seen, posts[1..], attempt, delivered);
    }
  }
}

=== FILE: text.dfy ===
/** ASCII case folding and substring containment: the two string operations
    behind the keyword test `keyword.lower() in title.lower()`. */
module Text {

  /** Lower-cases one ASCII letter; every other character is left alone. */
  function LowerChar(c: char): char
  {
    if 'A' <= c <= 'Z' then (c as int + ('a' as int - 'A' as int)) as char else c
  }

  /** ASCII approximation of Python's `str.lower()`. */
  function Lower(s: string): string
  {
    seq(|s|, i requires 0 <= i < |s| => LowerChar(s[i]))
  }

  /** No upper-case ASCII letter occurs in `s`. */
  predicate IsLower(s: string)
  {
    forall i :: 0 <= i < |s| ==> !('A' <= s[i] <= 'Z')
  }

  /** Lower-casing leaves no upper-case letter behind, and lower-casing twice
      is the same as lower-casing once. */
  lemma LowerIsLowerAndIdempotent(s: string)
    ensures IsLower(Lower(s))
    ensures Lower(Lower(s)) == Lower(s)
  {
    var l := Lower(s);
    forall i | 0 <= i < |s|
      ensures !('A' <= l[i] <= 'Z') && LowerChar(l[i]) == l[i]
    {
    }
  }

  /** Lower-casing distributes over concatenation. */
  lemma LowerAppend(a: string, b: string)
    ensures Lower(a + b) == Lower(a) + Lower(b)
  {
  }

  /** Reference meaning of Python's `p in t` on strings: `p` occurs in `t` at
      some position. */
  ghost predicate IsSubstring(p: string, t: string)
  {
    exists i :: OccursAt(p, t, i)
  }

  /** `p` occurs in `t` starting at position `i`. */
  predicate OccursAt(p: string, t: string, i: int)
  {
    0 <= i && i + |p| <= |t| && t[i..i + |p|] == p
  }

  /** Executable containment test: tries every start position from left to
      right, as a naive search does. */
  function Occurs(p: string, t: string): bool
    decreases |t|
  {
    if p <= t then true
    else if |t| == 0 then false
    else Occurs(p, t[1..])
  }

  /** An occurrence past the first position of `t` is an occurrence in the
      rest of `t`, one position earlier. */
  lemma OccursAtShift(p: string, t: string, i: int)
    requires 0 < i && 0 < |t|
    ensures OccursAt(p, t, i) <==> OccursAt(p, t[1..], i - 1)
  {
    if i + |p| <= |t| {
      var u := t[1..];
      assert forall k | i <= k < i + |p| :: u[k - 1] == t[k];
      assert u[i - 1..i - 1 + |p|] == t[i..i + |p|];
    }
  }

  /** The search finds `p` exactly when `p` occurs somewhere in `t`. */
  lemma {:induction false} OccursMeaning(p: string, t: string)
    ensures Occurs(p, t) <==> IsSubstring(p, t)
    decreases |t|
  {
    if p <= t {
      assert OccursAt(p, t, 0);
    } else if |t| == 0 {
      forall i ensures !OccursAt(p, t, i) {
      }
    } else {
      OccursMeaning(p, t[1..]);
      if Occurs(p, t[1..]) {
        var i :| OccursAt(p, t[1..], i);
        OccursAtShift(p, t, i + 1);
      } else {
        forall i ensures !OccursAt(p, t, i) {
          if 0 < i {
            OccursAtShift(p, t, i);
          }
        }
      }
    }
  }

  /** The empty string occurs in every string, the empty one included. */
  lemma EmptyOccursEverywhere(t: string)
    ensures Occurs("", t)
  {
    assert OccursAt("", t, 0);
    OccursMeaning("", t);
  }

  /** Containment is inherited by longer texts: whatever occurs in `t`
      occurs in `a + t + b`. */
  lemma OccursInContext(p: string, t: string, a: string, b: string)
    requires Occurs(p, t)
    ensures Occurs(p, a + t + b)
  {
    OccursMeaning(p, t);
    OccursMeaning(p, a + t + b);
    var i :| OccursAt(p, t, i);
    var w := a + t + b;
    assert w[|a| + i..|a| + i + |p|] == t[i..i + |p|];
    assert OccursAt(p, w, |a| + i);
  }
}

=== FILE: wrappers.dfy ===
/** Optional values, used where a decoder may reject its input. */
module Wrappers {
  datatype Option<+T> = None | Some(value: T)
}
